=== FILE: README.md ===
# Username dataset generator: a Dafny model

`usernames.py` builds a dataset of unique synthetic usernames. In a loop it:
- shows a text-generation model the last fifty usernames it has;
- asks it for ten new ones;
- cleans and parses the reply;
- keeps the reply only if it holds exactly ten well-formed records;
- appends the records whose username is new, until a target count is reached.

This project models that core in Dafny and proves properties of it.

| module (file) | models |
|---|---|
| `Wrappers` (`wrappers.dfy`) | `Option`, standing for Python's `None` |
| `Arith` (`arith.dfy`) | `Min` and `Max` |
| `JsonValues` (`json_values.dfy`) | decoded JSON values, Python truthiness, the `Entry` type: a JSON object with a `"username"` key |
| `Sequences` (`sequences.dfy`) | in-order subsequences and filtering, used to state what the cleaner and validator keep |
| `Cleaner` (`cleaner.dfy`) | `clean_ai_response` (see below) |
| `Context` (`context.dfy`) | `get_last_50_usernames` |
| `Validator` (`validator.dfy`) | the truthiness test, the record filter and the size-ten gate of `generate_username_batch` |
| `Accumulator` (`accumulator.dfy`) | loading the stored entries into the uniqueness set, and the per-batch merge loop of `generate_usernames_dataset` |
| `Pipeline` (`pipeline.dfy`) | one loop iteration, and the whole `generate_usernames_dataset` loop as a method with a bounded number of model calls |

`Cleaner` models `clean_ai_response` in three steps:
- `str.strip()`, over the 29 characters Python's `str.isspace` accepts;
- `re.sub` deleting the markers "```json", "```" and `'''`, as one left-to-right pass that tries the alternatives in order;
- the lazy `re.search(r'\[.*?\]', ..., re.DOTALL)`.

The model's reply and the JSON decoder are parameters:
- `respond(k, context)` is the text of the k-th reply, given the context usernames. The call index stands for the model's nondeterminism.
- `decode(text)` is `json.loads`. `None` stands for `JSONDecodeError`.

Usernames are compared as JSON values, structurally.

The stored file may already hold duplicate usernames, and the code loads them as they are. This is why the uniqueness results assume the loaded entries are distinct, and say nothing otherwise.

A store that already holds at least `total_entries` entries is returned whole, not cut down to the target (`usernames.py:77-101`). See `Pipeline.GenerateDataset`.

## Model

| member | source | states |
|---|---|---|
| Cleaner.Strip | usernames.py:9 | the result neither starts nor ends with whitespace; an empty result means the text was all whitespace |
| Cleaner.StripCutsOnlyWhitespace | usernames.py:9 | the result sits in the text with only whitespace before and after it |
| Cleaner.TrimBounds | usernames.py:9 | the kept span is bounded by whitespace-only prefix and suffix, and its first and last characters are not whitespace; an all-whitespace text yields an empty span |
| Cleaner.StripKeepsTrimmedText | usernames.py:9 | `strip()` leaves a text unchanged when it is empty or neither starts nor ends with whitespace |
| Cleaner.MarkerAt | usernames.py:9 | the alternatives are tried in order: the match has length 7 exactly when the text starts with "```json"; length 3 exactly when it starts with "```" or `'''` but not "```json"; there is none exactly when it starts with neither "```" nor `'''` |
| Cleaner.RemoveMarkers | usernames.py:9 | the pass never lengthens the text, and a text in which no "```" and no `'''` starts comes back unchanged; what it deletes is stated by `Cleaner.MarkerDropped` |
| Cleaner.MarkerDropped | usernames.py:8-9 | wherever the scan meets "```json", `'''`, or "```" not followed by "json", that marker is deleted and the scan goes on right behind it |
| Cleaner.DoubledQuoteSurvives | usernames.py:9 | two single quotes in a row, as in "o''n", are not a marker and are kept |
| Cleaner.RemoveMarkersDeletesOnly | usernames.py:9 | deleting the markers only removes characters: the result is an in-order subsequence of the input |
| Cleaner.RemoveMarkersKeeps | usernames.py:9 | every character outside the markers' alphabet survives the deletion, in order and with the same multiplicity |
| Cleaner.RemoveMarkersQuoteFreePrefix | usernames.py:9 | a prefix with no backtick and no single quote passes through the deletion unchanged |
| Cleaner.FencedRoundTrip | usernames.py:8-9 | wrapping a text with no backtick or single quote in "```json" … "```" and deleting the markers gives the text back |
| Cleaner.IndexFrom | usernames.py:12 | the position returned is the first occurrence of the character at or after the start; none means it does not occur there |
| Cleaner.ListSpan | usernames.py:12 | the match starts at the first '[' and, the star being lazy, ends at the first ']' after it; there is no match exactly when no '[' is followed by a ']' |
| Cleaner.ExtractList | usernames.py:12-13 | the matched text is the cleaned text's own substring over the span `ListSpan` finds; it opens with '[', closes with ']' and holds no other ']'; nothing is matched exactly when no '[' is followed by a ']' |
| Cleaner.ExtractListIsolates | usernames.py:12-15 | text without '[' before a bracketed list whose body has no ']' is skipped, and exactly that list is handed to the decoder |
| Cleaner.StripKeepsBrackets | usernames.py:9 | trimming never removes a bracket |
| Cleaner.BracketPairOnBrackets | usernames.py:12 | whether some '[' is followed by a ']' depends only on the text's brackets |
| Cleaner.CandidateNeedsBracketPair | usernames.py:9-13 | after trimming and marker removal a list is found exactly when the raw reply has a '[' followed by a ']' |
| Cleaner.Clean | usernames.py:6-18 | the cleaner returns nothing unless the raw reply has a '[' followed by a ']'; when it has one, the result is the decoder's verdict on the cut-out list; with a grammar-respecting decoder every value returned is a list |
| Cleaner.FencedListCleaned | usernames.py:8-9 | a list whose body has no backtick or single quote, fenced as "```json", newline, list, newline, "```", is reduced to the list between newlines |
| Cleaner.CleanFencedList | usernames.py:6-18 | a fenced list whose body has no ']', backtick or single quote is decoded exactly as the bare list |
| Context.Usernames | usernames.py:23 | the username of every entry, in order |
| Context.LastUsernames | usernames.py:20-23 | the usernames of the last min(50, n) entries, in their order |
| Context.LastUsernamesIsSuffix | usernames.py:22-23 | the context is a suffix of the dataset's usernames; a dataset of at most 50 entries is shown whole |
| Context.LastUsernamesSlides | usernames.py:22-23 | appending an entry adds its username at the end of the context and, once 50 are shown, drops the oldest |
| Validator.ValidEntries | usernames.py:54-57 | every JSON value that is a record with a "username" key is kept as often as it occurs, and nothing else is |
| Validator.ValidEntriesInOrder | usernames.py:54-57 | the kept records keep their order from the decoded list |
| Validator.ValidEntriesAppend | usernames.py:54-57 | filtering a concatenation filters the parts independently |
| Validator.ValidEntriesOfEntries | usernames.py:56-57 | a list made only of records is kept whole |
| Validator.ValidEntriesOfJunk | usernames.py:56 | a list with no record carrying "username" yields nothing |
| Validator.Validate | usernames.py:51-62 | a batch is accepted exactly when the decoded value is a list with exactly ten records, and then it is those records, in order; a truthy number or `true` raises; anything else gives no batch |
| Validator.JunkDoesNotCount | usernames.py:54-59 | appending elements that are not username records never changes the verdict |
| Validator.AllRecordsGate | usernames.py:54-59 | a list of records is accepted, whole, exactly when it has ten elements |
| Accumulator.AddUsernames | usernames.py:73-74 | adding the stored entries' usernames gives the old set plus exactly those usernames |
| Accumulator.Load | usernames.py:66-77 | the loaded state keeps the stored entries as they are, counts them, and its set holds exactly their usernames |
| Accumulator.Admit | usernames.py:88-92 | an entry changes the state exactly when its username is new and the target is not reached, and then it is appended, its username added and the count raised by one; a consistent state stays consistent |
| Accumulator.Merge | usernames.py:87-92 | the dataset only grows at its end, by at most the batch size; the count grows in step and never passes the larger of its start and the target; a state already at the target is unchanged |
| Accumulator.MergeAppendsFromBatch | usernames.py:87-91 | the appended entries are an in-order subsequence of the batch |
| Accumulator.MergeAddsFreshUsernames | usernames.py:88-91 | every appended username was not known before, no two appended entries share one, and the set grows by exactly the appended usernames |
| Accumulator.MergeKeepsConsistent | usernames.py:87-92 | the set stays the usernames of the dataset and the count stays its length |
| Accumulator.MergeKeepsDistinct | usernames.py:87-92 | a dataset with distinct usernames keeps them distinct |
| Accumulator.DistinctSizes | usernames.py:66-92 | with distinct usernames the set is exactly as large as the dataset |
| Accumulator.MergeMissesOnlyAtCap | usernames.py:87-92 | when the merge ends below the target, every username the batch offered is now known |
| Accumulator.MergeIsDedupThenCap | usernames.py:87-92 | merging appends the batch's first occurrences of new usernames, cut off at the number of entries still missing |
| Accumulator.MergeTakesFreshBatch | usernames.py:87-92 | a batch of new, pairwise distinct usernames that fits under the target is appended whole |
| Accumulator.DedupOfFresh | usernames.py:88-89 | deduplication leaves a batch of distinct, unknown usernames as it is |
| Pipeline.BatchFromReply | usernames.py:51-62 | a reply with no '[' followed by a ']' never yields a batch; otherwise the decoded cut-out list is validated; an accepted batch has ten entries; with a decoder that turns '['-text only into lists, iterating the decoded value never raises |
| Pipeline.Iterate | usernames.py:79-92 | one iteration raises exactly when iterating the decoded value fails; an accepted batch appends its first occurrences of new usernames, cut off at the entries still missing; no batch leaves the state unchanged; the dataset only grows at its end within the target, and the set, count and distinct usernames stay consistent |
| Pipeline.OneRoundFillsEmptyStore | usernames.py:79-92 | with a target of ten, an empty store and an accepted batch of ten distinct usernames, one iteration stores exactly that batch |
| Pipeline.Run | usernames.py:79-92 | a run ends with `Done` exactly when the count has reached the target; it never uses more than the allowed calls, and it runs out of calls only after using them all; a state already at the target is returned as it is, with no call |
| Pipeline.RunKeepsProgress | usernames.py:66-92 | over a whole run the loaded entries stay a prefix, the count stays between the loaded size and max(loaded, target), the set and count stay consistent and distinct usernames stay distinct; a run crashes only with a decoder that lets a scalar through where JSON's grammar demands a list |
| Pipeline.RunFirstReplyFills | usernames.py:79-92 | an empty store with a target of ten is filled by a first reply of ten new distinct usernames, after exactly one call |
| Pipeline.GenerateDataset | usernames.py:64-101 | the returned state, call count and status are exactly those of `Run` from the loaded state: each round asks the model with the last fifty usernames of the current dataset, merges an accepted batch, retries on no batch and stops on a raise; the loaded entries stay a prefix; the count never passes max(loaded, target); the run is done exactly when the target is met; a satisfied store makes no call and is returned unchanged; distinct usernames stay distinct and the set size equals the count; a grammar-respecting decoder never crashes; a first reply of ten new distinct usernames finishes an empty store's target of ten in one call |

## Left out

- The model call (`usernames.py:44-48`) and the prompt text (`usernames.py:27-42`) are replaced by the `respond` parameter. Streaming and the concatenation of streamed parts are not modelled.
- `json.loads` and `json.dump(s)` are not modelled. The decoder is the `decode` parameter, and is related to JSON's grammar only through `ArrayFaithful`.
- File existence, reading and writing, `input`, and every `print` are I/O and are not modelled. The loaded file is the `existing` parameter, a list of records with a "username" key. A stored `[]`, `{}` or `""` iterates nothing and loads as an empty dataset, which is `existing == []`. Any other stored value that is not a list of such records raises while loading (a key, character or scalar indexed by "username", or a record without the key), and is not modelled.
- Pipeline.GenerateDataset: the source retries without bound while batches fail. The model stops after `maxCalls` replies and reports `OutOfCalls`. Non-termination of the source is not modelled.
- Python's numeric equality (`1 == 1.0 == True`) in the uniqueness set, unhashable usernames (lists, objects), and floating-point or NaN values are not modelled. Usernames are compared as structurally equal JSON values.

=== FILE: accumulator.dfy ===
/**
 * The deduplicating accumulator of `generate_usernames_dataset` in
 * usernames.py: the running dataset, the set of usernames seen so far and
 * the running count, threaded through each accepted batch as one value.
 */
module Accumulator {
  import opened Arith
  import opened JsonValues
  import opened Sequences

  /** The accumulator: the entries so far, the usernames already seen, and the running count. */
  datatype State = State(dataset: seq<Entry>, seen: set<Json>, count: nat)

  /** The usernames that occur in `d`. */
  function UsernameSet(d: seq<Entry>): set<Json> {
    set k | 0 <= k < |d| :: Username(d[k])
  }

  /** The count tracks the dataset's length and the set holds exactly its usernames. */
  predicate Consistent(st: State) {
    st.count == |st.dataset| && st.seen == UsernameSet(st.dataset)
  }

  /** No username occurs twice in `d`. */
  predicate Distinct(d: seq<Entry>) {
    forall i, j :: 0 <= i < j < |d| ==> Username(d[i]) != Username(d[j])
  }

  lemma UsernameSetCons(d: seq<Entry>)
    requires |d| > 0
    ensures UsernameSet(d) == {Username(d[0])} + UsernameSet(d[1..])
  {
    forall u | u in UsernameSet(d)
      ensures u in {Username(d[0])} + UsernameSet(d[1..])
    {
      var k :| 0 <= k < |d| && Username(d[k]) == u;
      if k > 0 {
        assert Username(d[1..][k - 1]) == u;
      }
    }
    forall u | u in UsernameSet(d[1..])
      ensures u in UsernameSet(d)
    {
      var k :| 0 <= k < |d| - 1 && Username(d[1..][k]) == u;
      assert Username(d[k + 1]) == u;
    }
  }

  lemma UsernameSetAppend(a: seq<Entry>, b: seq<Entry>)
    ensures UsernameSet(a + b) == UsernameSet(a) + UsernameSet(b)
  {
    forall u | u in UsernameSet(a + b)
      ensures u in UsernameSet(a) + UsernameSet(b)
    {
      var k :| 0 <= k < |a + b| && Username((a + b)[k]) == u;
      if k < |a| {
        assert Username(a[k]) == u;
      } else {
        assert Username(b[k - |a|]) == u;
      }
    }
    forall u | u in UsernameSet(a)
      ensures u in UsernameSet(a + b)
    {
      var k :| 0 <= k < |a| && Username(a[k]) == u;
      assert Username((a + b)[k]) == u;
    }
    forall u | u in UsernameSet(b)
      ensures u in UsernameSet(a + b)
    {
      var k :| 0 <= k < |b| && Username(b[k]) == u;
      assert Username((a + b)[|a| + k]) == u;
    }
  }

  /** Loading: the username of every stored entry is added to the seen set. */
  function AddUsernames(seen: set<Json>, d: seq<Entry>): (r: set<Json>)
    ensures r == seen + UsernameSet(d)
    decreases |d|
  {
    if |d| == 0 then
      seen
    else
      UsernameSetCons(d);
      AddUsernames(seen + {Username(d[0])}, d[1..])
  }

  /**
   * The state after loading a stored dataset: the entries kept as they are
   * (duplicates included), their usernames collected, the count set to the length.
   */
  function Load(existing: seq<Entry>): (r: State)
    ensures r.dataset == existing && r.count == |existing|
    ensures Consistent(r)
  {
    State(existing, AddUsernames({}, existing), |existing|)
  }

  /**
   * One pass of the inner loop: the entry is appended, and its username
   * recorded, when that username is new and the target is not yet reached.
   */
  function Admit(st: State, e: Entry, total: int): (r: State)
    ensures r != st <==> Username(e) !in st.seen && st.count < total
    ensures r != st ==>
      && r.dataset == st.dataset + [e]
      && r.seen == st.seen + {Username(e)}
      && r.count == st.count + 1
    ensures Consistent(st) ==> Consistent(r)
  {
    var u := Username(e);
    UsernameSetAppend(st.dataset, [e]);
    assert UsernameSet([e]) == {u} by {
      assert Username([e][0]) == u;
    }
    if u !in st.seen && st.count < total then
      State(st.dataset + [e], st.seen + {u}, st.count + 1)
    else
      st
  }

  /** The per-batch loop: every entry of the batch is offered to `Admit`, in order. */
  function Merge(st: State, batch: seq<Entry>, total: int): (r: State)
    ensures st.dataset <= r.dataset
    ensures r.count - st.count == |r.dataset| - |st.dataset| <= |batch|
    ensures st.count <= r.count <= Max(st.count, total)
    ensures st.seen <= r.seen
    ensures st.count >= total ==> r == st
    decreases |batch|
  {
    if |batch| == 0 then st else Merge(Admit(st, batch[0], total), batch[1..], total)
  }

  /** The appended entries form an in-order subsequence of the batch. */
  lemma {:induction false} MergeAppendsFromBatch(st: State, batch: seq<Entry>, total: int)
    ensures var r := Merge(st, batch, total);
      IsSubsequence(r.dataset[|st.dataset|..], batch)
    decreases |batch|
  {
    var r := Merge(st, batch, total);
    if |batch| == 0 {
    } else {
      var st' := Admit(st, batch[0], total);
      MergeAppendsFromBatch(st', batch[1..], total);
      var added' := r.dataset[|st'.dataset|..];
      if st' == st {
        assert IsSubsequence(r.dataset[|st.dataset|..], batch[1..]);
      } else {
        assert r.dataset[|st.dataset|] == batch[0];
        assert r.dataset[|st.dataset|..] == [batch[0]] + added';
      }
    }
  }

  /**
   * Every appended username was absent from the set before, no two appended
   * entries share a username, and the new set is the old one plus exactly
   * the appended usernames.
   */
  lemma {:induction false} MergeAddsFreshUsernames(st: State, batch: seq<Entry>, total: int)
    ensures var r := Merge(st, batch, total);
      var added := r.dataset[|st.dataset|..];
      && (forall k :: 0 <= k < |added| ==> Username(added[k]) !in st.seen)
      && Distinct(added)
      && r.seen == st.seen + UsernameSet(added)
    decreases |batch|
  {
    var r := Merge(st, batch, total);
    var added := r.dataset[|st.dataset|..];
    if |batch| == 0 {
      assert added == [];
    } else {
      var st' := Admit(st, batch[0], total);
      assert r == Merge(st', batch[1..], total);
      MergeAddsFreshUsernames(st', batch[1..], total);
      var added' := r.dataset[|st'.dataset|..];
      if st' == st {
        assert added == added';
      } else {
        assert st'.dataset == st.dataset + [batch[0]];
        assert st'.seen == st.seen + {Username(batch[0])};
        assert added == [batch[0]] + added';
        FreshCons(st.seen, batch[0], added', r.seen);
      }
    }
  }

  /** The inductive step of `MergeAddsFreshUsernames`: one admitted entry in front of a fresh run. */
  lemma FreshCons(seen: set<Json>, e: Entry, rest: seq<Entry>, after: set<Json>)
    requires Username(e) !in seen
    requires forall k :: 0 <= k < |rest| ==> Username(rest[k]) !in seen + {Username(e)}
    requires Distinct(rest)
    requires after == seen + {Username(e)} + UsernameSet(rest)
    ensures var added := [e] + rest;
      && (forall k :: 0 <= k < |added| ==> Username(added[k]) !in seen)
      && Distinct(added)
      && after == seen + UsernameSet(added)
  {
    var added := [e] + rest;
    assert added[1..] == rest;
    UsernameSetCons(added);
    forall k | 0 <= k < |added|
      ensures Username(added[k]) !in seen
    {
      if k > 0 {
        assert added[k] == rest[k - 1];
      }
    }
    forall i, j | 0 <= i < j < |added|
      ensures Username(added[i]) != Username(added[j])
    {
      assert added[j] == rest[j - 1];
      if i > 0 {
        assert added[i] == rest[i - 1];
      }
    }
  }

  /** The merge keeps the state consistent: each admitted entry does. */
  lemma {:induction false} MergeKeepsConsistent(st: State, batch: seq<Entry>, total: int)
    requires Consistent(st)
    ensures Consistent(Merge(st, batch, total))
    decreases |batch|
  {
    if |batch| > 0 {
      MergeKeepsConsistent(Admit(st, batch[0], total), batch[1..], total);
    }
  }

  /** A merge into a consistent state with distinct usernames keeps them distinct. */
  lemma MergeKeepsDistinct(st: State, batch: seq<Entry>, total: int)
    requires Consistent(st) && Distinct(st.dataset)
    ensures Distinct(Merge(st, batch, total).dataset)
  {
    var r := Merge(st, batch, total);
    var n := |st.dataset|;
    var added := r.dataset[n..];
    MergeAddsFreshUsernames(st, batch, total);
    forall i, j | 0 <= i < j < |r.dataset|
      ensures Username(r.dataset[i]) != Username(r.dataset[j])
    {
      if j < n {
        assert r.dataset[i] == st.dataset[i] && r.dataset[j] == st.dataset[j];
      } else if i < n {
        assert r.dataset[i] == st.dataset[i];
        assert Username(r.dataset[i]) in st.seen;
        assert r.dataset[j] == added[j - n];
      } else {
        assert r.dataset[i] == added[i - n] && r.dataset[j] == added[j - n];
      }
    }
  }

  /** With distinct usernames the set is exactly as large as the dataset. */
  lemma {:induction false} DistinctSizes(d: seq<Entry>)
    requires Distinct(d)
    ensures |UsernameSet(d)| == |d|
    decreases |d|
  {
    if |d| > 0 {
      UsernameSetCons(d);
      assert Distinct(d[1..]) by {
        forall i, j | 0 <= i < j < |d| - 1
          ensures Username(d[1..][i]) != Username(d[1..][j])
        {
          assert d[1..][i] == d[i + 1] && d[1..][j] == d[j + 1];
        }
      }
      DistinctSizes(d[1..]);
      assert Username(d[0]) !in UsernameSet(d[1..]) by {
        forall k | 0 <= k < |d| - 1
          ensures Username(d[1..][k]) != Username(d[0])
        {
          assert d[1..][k] == d[k + 1];
        }
      }
    }
  }

  /** When the merge stops short of the target, every username the batch offered is now known. */
  lemma {:induction false} MergeMissesOnlyAtCap(st: State, batch: seq<Entry>, total: int)
    requires Merge(st, batch, total).count < total
    ensures forall k :: 0 <= k < |batch| ==> Username(batch[k]) in Merge(st, batch, total).seen
    decreases |batch|
  {
    if |batch| > 0 {
      var st' := Admit(st, batch[0], total);
      MergeMissesOnlyAtCap(st', batch[1..], total);
      assert Username(batch[0]) in st'.seen;
      forall k | 0 <= k < |batch|
        ensures Username(batch[k]) in Merge(st, batch, total).seen
      {
        if k > 0 {
          assert batch[k] == batch[1..][k - 1];
        }
      }
    }
  }

  // ---------------------------------------------------------------------
  // An independent description: deduplicate first, then cut at the target
  // ---------------------------------------------------------------------

  /** The first occurrence of every username of `b` not already in `seen`, in order. */
  function Dedup(seen: set<Json>, b: seq<Entry>): seq<Entry>
    decreases |b|
  {
    if |b| == 0 then []
    else if Username(b[0]) in seen then Dedup(seen, b[1..])
    else [b[0]] + Dedup(seen + {Username(b[0])}, b[1..])
  }

  /** The first `n` elements of `s`, or all of them when there are fewer. */
  function Take<T>(n: int, s: seq<T>): seq<T> {
    if n <= 0 then [] else if n >= |s| then s else s[..n]
  }

  lemma TakeCons<T>(n: int, x: T, s: seq<T>)
    requires n > 0
    ensures Take(n, [x] + s) == [x] + Take(n - 1, s)
  {
    if n - 1 < |s| {
      assert ([x] + s)[..n] == [x] + s[..n - 1];
    }
  }

  lemma AppendCons<T>(a: seq<T>, x: T, b: seq<T>)
    ensures (a + [x]) + b == a + ([x] + b)
  {
  }

  /**
   * Merging appends exactly the batch's new usernames, deduplicated, cut
   * off at the entries still missing from the target; the rest are dropped.
   */
  lemma {:induction false} MergeIsDedupThenCap(st: State, batch: seq<Entry>, total: int)
    ensures Merge(st, batch, total).dataset == st.dataset + Take(total - st.count, Dedup(st.seen, batch))
    decreases |batch|
  {
    if |batch| == 0 {
      assert st.dataset + [] == st.dataset;
    } else if st.count >= total {
      assert st.dataset + [] == st.dataset;
    } else {
      var e := batch[0];
      var st' := Admit(st, e, total);
      MergeIsDedupThenCap(st', batch[1..], total);
      if Username(e) in st.seen {
        assert Dedup(st.seen, batch) == Dedup(st.seen, batch[1..]);
      } else {
        var rest := Dedup(st.seen + {Username(e)}, batch[1..]);
        assert Dedup(st.seen, batch) == [e] + rest;
        TakeCons(total - st.count, e, rest);
        AppendCons(st.dataset, e, Take(total - st.count - 1, rest));
      }
    }
  }

  /** A batch of new, pairwise distinct usernames that fits under the target is appended whole. */
  lemma MergeTakesFreshBatch(st: State, batch: seq<Entry>, total: int)
    requires Distinct(batch)
    requires forall k :: 0 <= k < |batch| ==> Username(batch[k]) !in st.seen
    requires st.count + |batch| <= total
    ensures Merge(st, batch, total).dataset == st.dataset + batch
  {
    DedupOfFresh(st.seen, batch);
    MergeIsDedupThenCap(st, batch, total);
  }

  lemma {:induction false} DedupOfFresh(seen: set<Json>, b: seq<Entry>)
    requires Distinct(b)
    requires forall k :: 0 <= k < |b| ==> Username(b[k]) !in seen
    ensures Dedup(seen, b) == b
    decreases |b|
  {
    if |b| > 0 {
      var u := Username(b[0]);
      forall k | 0 <= k < |b| - 1
        ensures Username(b[1..][k]) !in seen + {u}
      {
        assert b[1..][k] == b[k + 1];
      }
      assert Distinct(b[1..]) by {
        forall i, j | 0 <= i < j < |b| - 1
          ensures Username(b[1..][i]) != Username(b[1..][j])
        {
          assert b[1..][i] == b[i + 1] && b[1..][j] == b[j + 1];
        }
      }
      DedupOfFresh(seen + {u}, b[1..]);
    }
  }
}

=== FILE: arith.dfy ===
/** Integer helpers shared by the window size and the target cap. */
module Arith {

  function Min(a: int, b: int): int { if a <= b then a else b }

  function Max(a: int, b: int): int { if a >= b then a else b }
}

=== FILE: cleaner.dfy ===
/**
 * The response cleaner of usernames.py (`clean_ai_response`): trim the raw
 * text, delete the wrapper markers in one regex pass, cut out the first
 * bracket-delimited list and hand it to the JSON decoder.
 */
module Cleaner {
  import opened Wrappers
  import opened JsonValues
  import opened Sequences

  // ---------------------------------------------------------------------
  // Trimming whitespace
  // ---------------------------------------------------------------------

  /** The characters Python's `str.isspace` accepts, which `str.strip()` removes. */
  const Whitespace: set<char> := {
    '\t', '\n', '\U{0B}', '\U{0C}', '\r', '\U{1C}', '\U{1D}', '\U{1E}', '\U{1F}', ' ',
    '\U{85}', '\U{A0}', '\U{1680}',
    '\U{2000}', '\U{2001}', '\U{2002}', '\U{2003}', '\U{2004}', '\U{2005}',
    '\U{2006}', '\U{2007}', '\U{2008}', '\U{2009}', '\U{200A}',
    '\U{2028}', '\U{2029}', '\U{202F}', '\U{205F}', '\U{3000}'
  }

  predicate IsSpace(c: char) {
    c in Whitespace
  }

  /** The first position in `lo..hi` holding a character outside `drop`, or `hi` when there is none. */
  function SkipForward(s: string, drop: char -> bool, lo: nat, hi: nat): (n: nat)
    requires lo <= hi <= |s|
    ensures lo <= n <= hi
    ensures forall k :: lo <= k < n ==> drop(s[k])
    ensures n == hi || !drop(s[n])
    decreases hi - lo
  {
    if lo < hi && drop(s[lo]) then SkipForward(s, drop, lo + 1, hi) else lo
  }

  /** The end of the text in `lo..hi` once a trailing run of `drop` characters is cut off. */
  function SkipBackward(s: string, drop: char -> bool, lo: nat, hi: nat): (n: nat)
    requires lo <= hi <= |s|
    ensures lo <= n <= hi
    ensures forall k :: n <= k < hi ==> drop(s[k])
    ensures n == lo || !drop(s[n - 1])
    decreases hi - lo
  {
    if lo < hi && drop(s[hi - 1]) then SkipBackward(s, drop, lo, hi - 1) else hi
  }

  /**
   * Where trimming on both sides cuts: everything before the first bound and
   * from the second bound on is in `drop`, and a non-empty middle starts and
   * ends outside it, so no more could be cut.
   */
  function TrimBounds(s: string, drop: char -> bool): (b: (nat, nat))
    ensures b.0 <= b.1 <= |s|
    ensures forall k :: 0 <= k < b.0 ==> drop(s[k])
    ensures forall k :: b.1 <= k < |s| ==> drop(s[k])
    ensures b.0 < b.1 ==> !drop(s[b.0]) && !drop(s[b.1 - 1])
    ensures b.0 == b.1 ==> forall k :: 0 <= k < |s| ==> drop(s[k])
  {
    var i := SkipForward(s, drop, 0, |s|);
    (i, SkipBackward(s, drop, i, |s|))
  }

  /** Python's argument-less `strip`: leading and trailing whitespace removed. */
  function Strip(s: string): (r: string)
    ensures |r| > 0 ==> !IsSpace(r[0]) && !IsSpace(r[|r| - 1])
    ensures r == [] ==> forall k :: 0 <= k < |s| ==> IsSpace(s[k])
  {
    var b := TrimBounds(s, IsSpace);
    s[b.0..b.1]
  }

  /** Stripping cuts only whitespace: the result sits in the text with nothing but whitespace around it. */
  lemma StripCutsOnlyWhitespace(s: string)
    ensures exists lo: nat :: StrippedAt(s, lo, Strip(s))
  {
    var b := TrimBounds(s, IsSpace);
    assert StrippedAt(s, b.0, Strip(s));
  }

  /** `r` sits in `s` at `lo`, and everything before and after it is whitespace. */
  predicate StrippedAt(s: string, lo: nat, r: string) {
    && lo + |r| <= |s|
    && s[lo..lo + |r|] == r
    && (forall k :: 0 <= k < lo ==> IsSpace(s[k]))
    && (forall k :: lo + |r| <= k < |s| ==> IsSpace(s[k]))
  }

  /** Text that neither starts nor ends with whitespace is left as it is. */
  lemma StripKeepsTrimmedText(s: string)
    requires s == [] || (!IsSpace(s[0]) && !IsSpace(s[|s| - 1]))
    ensures Strip(s) == s
  {
    var b := TrimBounds(s, IsSpace);
    assert b == (0, |s|);
    assert s[0..|s|] == s;
  }

  // ---------------------------------------------------------------------
  // Deleting the fence markers "```json", "```" and three single quotes
  // ---------------------------------------------------------------------

  const FenceJson: string := "```json"
  const Fence: string := "```"
  const TripleQuote: string := "'''"

  predicate StartsWith(s: string, p: string) {
    |p| <= |s| && forall i :: 0 <= i < |p| ==> s[i] == p[i]
  }

  /**
   * Length of the marker the regex alternation matches at the start of `s`:
   * "```json" is tried first, then "```", then "'''"; 0 when none matches.
   */
  function MarkerAt(s: string): (n: nat)
    ensures n == 0 || n == 3 || n == 7
    ensures n <= |s|
    ensures n == |FenceJson| <==> StartsWith(s, FenceJson)
    ensures n == |Fence| <==> !StartsWith(s, FenceJson) && (StartsWith(s, Fence) || StartsWith(s, TripleQuote))
    ensures n == 0 <==> !StartsWith(s, Fence) && !StartsWith(s, TripleQuote)
  {
    FenceJsonStartsWithFence(s);
    if StartsWith(s, FenceJson) then |FenceJson|
    else if StartsWith(s, Fence) then |Fence|
    else if StartsWith(s, TripleQuote) then |TripleQuote|
    else 0
  }

  /** "```json" begins with "```", so a text starting with the former starts with the latter. */
  lemma FenceJsonStartsWithFence(s: string)
    ensures StartsWith(s, FenceJson) ==> StartsWith(s, Fence)
  {
    if StartsWith(s, FenceJson) {
      forall i | 0 <= i < |Fence|
        ensures s[i] == Fence[i]
      {
        assert FenceJson[i] == Fence[i];
      }
    }
  }

  /** No marker starts anywhere in `s`: no "```" and no three single quotes in a row. */
  predicate NoMarker(s: string) {
    forall i :: 0 <= i < |s| ==> !MarkerStartsAt(s, i)
  }

  /** "```" or three single quotes begin at position `i` of `s`. */
  predicate MarkerStartsAt(s: string, i: nat) {
    i + 3 <= |s| && s[i] == s[i + 1] == s[i + 2] && (s[i] == '`' || s[i] == '\'')
  }

  /** The pattern matches at the start of `s` exactly when "```" or three single quotes begin there. */
  lemma MarkerAtStart(s: string)
    ensures MarkerAt(s) > 0 <==> MarkerStartsAt(s, 0)
  {
    assert Fence[0] == Fence[1] == Fence[2] == '`';
    assert TripleQuote[0] == TripleQuote[1] == TripleQuote[2] == '\'';
  }

  /** A marker-free text starts with no marker, and its tail is marker-free too. */
  lemma NoMarkerTail(s: string)
    requires |s| > 0
    ensures NoMarker(s) ==> MarkerAt(s) == 0 && NoMarker(s[1..]) && s == [s[0]] + s[1..]
  {
    MarkerAtStart(s);
    if NoMarker(s) {
      forall i | 0 <= i < |s| - 1
        ensures !MarkerStartsAt(s[1..], i)
      {
        assert !MarkerStartsAt(s, i + 1);
      }
    }
  }

  /**
   * One left-to-right pass of `re.sub`: at each position the first alternative
   * that matches is deleted and scanning resumes after it; where none matches,
   * the character is kept. Markers created by a deletion are not revisited.
   */
  function RemoveMarkers(s: string): (r: string)
    ensures |r| <= |s|
    ensures NoMarker(s) ==> r == s
    decreases |s|
  {
    if |s| == 0 then
      []
    else if MarkerAt(s) > 0 then
      MarkerAtStart(s);
      RemoveMarkers(s[MarkerAt(s)..])
    else
      NoMarkerTail(s);
      [s[0]] + RemoveMarkers(s[1..])
  }

  /** "```" followed by `t` reads as "```json" only when `t` starts with "json". */
  lemma FenceJsonAfterFence(t: string)
    ensures StartsWith(Fence + t, FenceJson) ==> StartsWith(t, "json")
  {
    var s := Fence + t;
    if StartsWith(s, FenceJson) {
      forall i | 0 <= i < 4
        ensures t[i] == "json"[i]
      {
        assert t[i] == s[i + 3] == FenceJson[i + 3];
      }
    }
  }

  /**
   * Each alternative is deleted wherever the scan meets it: "```json", three
   * single quotes, and "```" when "json" does not follow. Scanning then
   * resumes right behind the marker.
   */
  lemma MarkerDropped(m: string, t: string)
    requires m == FenceJson || m == Fence || m == TripleQuote
    requires m == Fence ==> !StartsWith(t, "json")
    ensures RemoveMarkers(m + t) == RemoveMarkers(t)
  {
    var s := m + t;
    assert s[..|m|] == m && s[|m|..] == t;
    assert StartsWith(s, m);
    if m == FenceJson {
      assert MarkerAt(s) == |FenceJson|;
    } else if m == Fence {
      FenceJsonAfterFence(t);
      assert MarkerAt(s) == |Fence|;
    } else {
      assert !StartsWith(s, Fence) by {
        assert s[0] == '\'' && Fence[0] == '`';
      }
      assert MarkerAt(s) == |TripleQuote|;
    }
  }

  /** Two single quotes in a row are not a marker and are kept. */
  lemma DoubledQuoteSurvives()
    ensures RemoveMarkers("o''n") == "o''n"
  {
    var s := "o''n";
    assert s[0] == 'o' && s[1] == '\'' && s[2] == '\'' && s[3] == 'n';
    assert NoMarker(s);
  }

  /** Marker removal only deletes: what is left keeps its original order. */
  lemma {:induction false} RemoveMarkersDeletesOnly(s: string)
    ensures IsSubsequence(RemoveMarkers(s), s)
    decreases |s|
  {
    if |s| == 0 {
    } else if MarkerAt(s) > 0 {
      RemoveMarkersDeletesOnly(s[MarkerAt(s)..]);
      SubsequenceOfSuffix(RemoveMarkers(s), s, MarkerAt(s));
    } else {
      RemoveMarkersDeletesOnly(s[1..]);
      var r := RemoveMarkers(s);
      assert r[0] == s[0] && r[1..] == RemoveMarkers(s[1..]);
    }
  }

  /** The characters that occur in some marker. */
  predicate InMarkerAlphabet(c: char) {
    c == '`' || c == '\'' || c == 'j' || c == 's' || c == 'o' || c == 'n'
  }

  /** Text with neither a backtick nor a single quote cannot start a marker. */
  predicate QuoteFree(s: string) {
    forall i :: 0 <= i < |s| ==> s[i] != '`' && s[i] != '\''
  }

  lemma {:induction false} FilterSkipsPrefix(s: string, k: nat, p: char -> bool)
    requires k <= |s|
    requires forall i :: 0 <= i < k ==> !p(s[i])
    ensures Filter(s, p) == Filter(s[k..], p)
    decreases k
  {
    if k > 0 {
      assert s[1..][k - 1..] == s[k..];
      FilterSkipsPrefix(s[1..], k - 1, p);
    }
  }

  /**
   * Marker removal never touches a character outside the marker alphabet:
   * every such character survives, in its original order.
   */
  lemma {:induction false} RemoveMarkersKeeps(s: string, p: char -> bool)
    requires forall c :: p(c) ==> !InMarkerAlphabet(c)
    ensures Filter(RemoveMarkers(s), p) == Filter(s, p)
    decreases |s|
  {
    if |s| == 0 {
    } else if MarkerAt(s) > 0 {
      var m := MarkerAt(s);
      forall i | 0 <= i < m
        ensures !p(s[i])
      {
        assert InMarkerAlphabet(s[i]);
      }
      FilterSkipsPrefix(s, m, p);
      RemoveMarkersKeeps(s[m..], p);
    } else {
      RemoveMarkersKeeps(s[1..], p);
      FilterAppend([s[0]], RemoveMarkers(s[1..]), p);
    }
  }

  /** A character that cannot start a marker is copied, and scanning goes on behind it. */
  lemma RemoveMarkersKeepsPlain(t: string, u: string)
    requires |t| > 0 && t[0] != '`' && t[0] != '\''
    ensures RemoveMarkers(t + u) == [t[0]] + RemoveMarkers(t[1..] + u)
  {
    assert (t + u)[0] == t[0];
    assert MarkerAt(t + u) == 0;
    assert (t + u)[1..] == t[1..] + u;
  }

  lemma QuoteFreeTail(t: string)
    requires |t| > 0 && QuoteFree(t)
    ensures QuoteFree(t[1..])
  {
    forall i | 0 <= i < |t| - 1
      ensures t[1..][i] != '`' && t[1..][i] != '\''
    {
      assert t[1..][i] == t[i + 1];
    }
  }

  /** Text free of backticks and single quotes passes through marker removal unchanged and unaffected by what follows it. */
  lemma {:induction false} RemoveMarkersQuoteFreePrefix(t: string, u: string)
    requires QuoteFree(t)
    ensures RemoveMarkers(t + u) == t + RemoveMarkers(u)
    decreases |t|
  {
    if |t| == 0 {
      assert t + u == u;
      assert t + RemoveMarkers(u) == RemoveMarkers(u);
    } else {
      QuoteFreeTail(t);
      RemoveMarkersQuoteFreePrefix(t[1..], u);
      RemoveMarkersKeepsPlain(t, u);
      ConsAppend(t, RemoveMarkers(u));
    }
  }

  /** Wrapping quote-free text in a "```json" fence and a closing "```" is undone by marker removal. */
  lemma FencedRoundTrip(t: string)
    requires QuoteFree(t)
    ensures RemoveMarkers(FenceJson + t + Fence) == t
  {
    var s := FenceJson + t + Fence;
    assert StartsWith(s, FenceJson) by { assert s[..|FenceJson|] == FenceJson; }
    assert s[|FenceJson|..] == t + Fence;
    RemoveMarkersQuoteFreePrefix(t, Fence);
    assert RemoveMarkers(Fence) == [] by {
      assert StartsWith(Fence, Fence);
      assert Fence[|Fence|..] == [];
    }
    assert t + [] == t;
  }

  // ---------------------------------------------------------------------
  // Finding the first bracketed list, newlines included
  // ---------------------------------------------------------------------

  /** The first position at or after `lo` holding `c`, if any. */
  function IndexFrom(s: string, c: char, lo: nat): (r: Option<nat>)
    requires lo <= |s|
    ensures r.None? ==> forall k :: lo <= k < |s| ==> s[k] != c
    ensures r.Some? ==> lo <= r.value < |s| && s[r.value] == c
    ensures r.Some? ==> forall k :: lo <= k < r.value ==> s[k] != c
    decreases |s| - lo
  {
    if lo == |s| then None
    else if s[lo] == c then Some(lo)
    else IndexFrom(s, c, lo + 1)
  }

  /** Some '[' is followed, anywhere later, by some ']'. */
  predicate HasBracketPair(s: string) {
    exists i, j :: 0 <= i < j < |s| && s[i] == '[' && s[j] == ']'
  }

  /**
   * The span of the regex match, both ends included: it starts at the first
   * '[' and, the star being lazy, ends at the first ']' after it; newlines
   * are ordinary characters. There is none exactly when no '[' has a ']' after it.
   */
  function ListSpan(s: string): (r: Option<(nat, nat)>)
    ensures r.None? <==> !HasBracketPair(s)
    ensures r.Some? ==>
      && r.value.0 < r.value.1 < |s|
      && s[r.value.0] == '[' && s[r.value.1] == ']'
      && (forall k :: 0 <= k < r.value.0 ==> s[k] != '[')
      && (forall k :: r.value.0 < k < r.value.1 ==> s[k] != ']')
  {
    match IndexFrom(s, '[', 0)
    case None => None
    case Some(o) =>
      match IndexFrom(s, ']', o + 1)
      case None => None
      case Some(e) => Some((o, e))
  }

  /**
   * The matched text: the text of the span, which opens with '[', closes
   * with ']' and holds no other ']'.
   */
  function ExtractList(s: string): (r: Option<string>)
    ensures r.None? <==> !HasBracketPair(s)
    ensures r.Some? ==> ListSpan(s).Some? && r.value == s[ListSpan(s).value.0..ListSpan(s).value.1 + 1]
    ensures r.Some? ==>
      && 2 <= |r.value| && r.value[0] == '[' && r.value[|r.value| - 1] == ']'
      && forall k :: 0 < k < |r.value| - 1 ==> r.value[k] != ']'
  {
    match ListSpan(s)
    case None => None
    case Some((o, e)) => Some(s[o..e + 1])
  }

  // ---------------------------------------------------------------------
  // Brackets survive trimming and marker removal
  // ---------------------------------------------------------------------

  predicate IsBracket(c: char) {
    c == '[' || c == ']'
  }

  function Brackets(s: string): string {
    Filter(s, IsBracket)
  }

  lemma {:induction false} NoBracketsInSpace(s: string)
    requires forall k :: 0 <= k < |s| ==> IsSpace(s[k])
    ensures Brackets(s) == []
    decreases |s|
  {
    if |s| > 0 {
      assert !IsBracket(s[0]);
      NoBracketsInSpace(s[1..]);
    }
  }

  /** Stripping removes whitespace only, so the brackets of the text are kept, in order. */
  lemma StripKeepsBrackets(s: string)
    ensures Brackets(Strip(s)) == Brackets(s)
  {
    var b := TrimBounds(s, IsSpace);
    SpanKeepsBrackets(s, b.0, b.1);
  }

  /** Cutting whitespace-only ends off a text keeps all its brackets. */
  lemma SpanKeepsBrackets(s: string, lo: nat, hi: nat)
    requires lo <= hi <= |s|
    requires forall k :: 0 <= k < lo ==> IsSpace(s[k])
    requires forall k :: hi <= k < |s| ==> IsSpace(s[k])
    ensures Brackets(s[lo..hi]) == Brackets(s)
  {
    var pre, mid, post := s[..lo], s[lo..hi], s[hi..];
    assert s == pre + mid + post;
    SpaceSliceHasNoBrackets(s, 0, lo);
    assert s[0..lo] == pre;
    SpaceSliceHasNoBrackets(s, hi, |s|);
    assert s[hi..|s|] == post;
    FilterAppend(pre + mid, post, IsBracket);
    FilterAppend(pre, mid, IsBracket);
  }

  /** A run of whitespace inside a string contributes no brackets. */
  lemma SpaceSliceHasNoBrackets(s: string, lo: nat, hi: nat)
    requires lo <= hi <= |s|
    requires forall k :: lo <= k < hi ==> IsSpace(s[k])
    ensures Brackets(s[lo..hi]) == []
  {
    var t := s[lo..hi];
    forall k | 0 <= k < |t|
      ensures IsSpace(t[k])
    {
      assert t[k] == s[lo + k];
    }
    NoBracketsInSpace(t);
  }

  lemma HasBracketPairCons(c: char, t: string)
    ensures HasBracketPair([c] + t) <==> HasBracketPair(t) || (c == '[' && ']' in t)
  {
    var s := [c] + t;
    if HasBracketPair(s) {
      var i, j :| 0 <= i < j < |s| && s[i] == '[' && s[j] == ']';
      if i == 0 {
        assert t[j - 1] == ']';
      } else {
        assert t[i - 1] == '[' && t[j - 1] == ']';
      }
    }
    if HasBracketPair(t) {
      var i, j :| 0 <= i < j < |t| && t[i] == '[' && t[j] == ']';
      assert s[i + 1] == '[' && s[j + 1] == ']';
    }
    if c == '[' && ']' in t {
      var j :| 0 <= j < |t| && t[j] == ']';
      assert s[0] == '[' && s[j + 1] == ']';
    }
  }

  /** Whether a bracket pair exists depends only on the brackets, in order. */
  lemma {:induction false} BracketPairOnBrackets(s: string)
    ensures HasBracketPair(Brackets(s)) <==> HasBracketPair(s)
    decreases |s|
  {
    if |s| == 0 {
    } else {
      var t := s[1..];
      assert s == [s[0]] + t;
      BracketPairOnBrackets(t);
      HasBracketPairCons(s[0], t);
      FilterMembership(t, IsBracket, ']');
      if IsBracket(s[0]) {
        assert Brackets(s) == [s[0]] + Brackets(t);
        HasBracketPairCons(s[0], Brackets(t));
      } else {
        assert Brackets(s) == Brackets(t);
      }
    }
  }

  // ---------------------------------------------------------------------
  // clean_ai_response
  // ---------------------------------------------------------------------

  /** The text the decoder is given: trimmed, markers removed, first list cut out. */
  function Candidate(raw: string): Option<string> {
    ExtractList(RemoveMarkers(Strip(raw)))
  }

  /**
   * Trimming and marker removal never touch a bracket, so a list is found
   * exactly when the raw reply has a '[' followed by a ']'.
   */
  lemma CandidateNeedsBracketPair(raw: string)
    ensures Candidate(raw).Some? <==> HasBracketPair(raw)
  {
    var cleaned := RemoveMarkers(Strip(raw));
    StripKeepsBrackets(raw);
    RemoveMarkersKeeps(Strip(raw), IsBracket);
    BracketPairOnBrackets(raw);
    BracketPairOnBrackets(cleaned);
  }

  /** A decoder that honours JSON's grammar: a text that starts with '[' can only decode to an array. */
  ghost predicate ArrayFaithful(decode: string -> Option<Json>) {
    forall t :: |t| > 0 && t[0] == '[' && decode(t).Some? ==> decode(t).value.JArray?
  }

  /**
   * The response cleaner: `None` when the reply holds no '[' followed by a
   * ']', otherwise whatever the decoder makes of the first list in the
   * cleaned text, so `None` also when the decoder rejects it. With a
   * grammar-respecting decoder every value returned is a list.
   */
  function Clean(raw: string, decode: string -> Option<Json>): (r: Option<Json>)
    ensures r.Some? ==> HasBracketPair(raw)
    ensures HasBracketPair(raw) ==> Candidate(raw).Some? && r == decode(Candidate(raw).value)
    ensures ArrayFaithful(decode) && r.Some? ==> r.value.JArray?
  {
    CandidateNeedsBracketPair(raw);
    match Candidate(raw)
    case None => None
    case Some(candidate) => decode(candidate)
  }

  /** A bracketed list with no ']' inside, preceded by text without '[', is exactly what gets cut out. */
  lemma ExtractListIsolates(p: string, body: string, q: string)
    requires '[' !in p && ']' !in body
    ensures ExtractList(p + "[" + body + "]" + q) == Some("[" + body + "]")
  {
    var s := p + "[" + body + "]" + q;
    var e := |p| + 1 + |body|;
    assert s[|p|] == '[' && s[e] == ']';
    forall k | 0 <= k < |p|
      ensures s[k] != '['
    {
      assert s[k] == p[k];
    }
    forall k | |p| < k < e
      ensures s[k] != ']'
    {
      assert s[k] == body[k - |p| - 1];
    }
    assert ListSpan(s) == Some((|p|, e));
    assert s[|p|..e + 1] == "[" + body + "]";
  }

  /** The decoder sees whatever the three cleaning steps leave. */
  lemma CleanDecodes(raw: string, cleaned: string, list: string, decode: string -> Option<Json>)
    requires RemoveMarkers(Strip(raw)) == cleaned
    requires ExtractList(cleaned) == Some(list)
    ensures Clean(raw, decode) == decode(list)
  {
  }

  lemma FencedListQuoteFree(body: string)
    requires QuoteFree(body)
    ensures QuoteFree("\n" + "[" + body + "]" + "\n")
  {
    var t := "\n" + "[" + body + "]" + "\n";
    forall i | 0 <= i < |t|
      ensures t[i] != '`' && t[i] != '\''
    {
      if 2 <= i < 2 + |body| {
        assert t[i] == body[i - 2];
      }
    }
  }

  lemma FencedListCleaned(body: string)
    requires QuoteFree(body)
    ensures RemoveMarkers(Strip(FenceJson + "\n" + "[" + body + "]" + "\n" + Fence)) == "\n" + "[" + body + "]" + "\n"
  {
    var t := "\n" + "[" + body + "]" + "\n";
    var raw := FenceJson + t + Fence;
    assert FenceJson + "\n" + "[" + body + "]" + "\n" + Fence == raw;
    FencedListQuoteFree(body);
    assert raw[0] == '`' && raw[|raw| - 1] == '`';
    StripKeepsTrimmedText(raw);
    FencedRoundTrip(t);
  }

  lemma FencedListExtracted(body: string)
    requires ']' !in body
    ensures ExtractList("\n" + "[" + body + "]" + "\n") == Some("[" + body + "]")
  {
    ExtractListIsolates("\n", body, "\n");
  }

  /**
   * A fenced reply "```json\n[...]\n```" whose list body holds no ']' and no
   * quote characters hands exactly the bracketed list to the decoder.
   */
  lemma CleanFencedList(body: string, decode: string -> Option<Json>)
    requires QuoteFree(body) && ']' !in body
    ensures Clean(FenceJson + "\n" + "[" + body + "]" + "\n" + Fence, decode) == decode("[" + body + "]")
  {
    FencedListCleaned(body);
    FencedListExtracted(body);
    CleanDecodes(FenceJson + "\n" + "[" + body + "]" + "\n" + Fence, "\n" + "[" + body + "]" + "\n", "[" + body + "]", decode);
  }
}

=== FILE: context.dfy ===
/** The context selector of usernames.py (`get_last_50_usernames`). */
module Context {
  import opened Arith
  import opened JsonValues

  /** How many of the most recent usernames are shown to the model. */
  const ContextSize: nat := 50

  /** The username of every entry, in order. */
  function Usernames(d: seq<Entry>): (r: seq<Json>)
    ensures |r| == |d|
    ensures forall k :: 0 <= k < |d| ==> r[k] == Username(d[k])
  {
    seq(|d|, k requires 0 <= k < |d| => Username(d[k]))
  }

  /**
   * The context shown to the model: the usernames of the trailing
   * min(50, |d|) entries, in their order.
   */
  function LastUsernames(d: seq<Entry>): (r: seq<Json>)
    ensures |r| == Min(ContextSize, |d|)
    ensures forall k :: 0 <= k < |r| ==> r[k] == Username(d[|d| - |r| + k])
  {
    var window := if |d| >= ContextSize then d[|d| - ContextSize..] else d;
    Usernames(window)
  }

  /** The context is a suffix of the dataset's usernames; a short dataset is shown whole. */
  lemma LastUsernamesIsSuffix(d: seq<Entry>)
    ensures var r := LastUsernames(d);
      r == Usernames(d)[|d| - |r|..]
    ensures |d| <= ContextSize ==> LastUsernames(d) == Usernames(d)
  {
    var r := LastUsernames(d);
    assert r == Usernames(d)[|d| - |r|..];
  }

  /** Appending an entry slides the window by one: its username enters and, once full, the oldest leaves. */
  lemma LastUsernamesSlides(d: seq<Entry>, e: Entry)
    ensures LastUsernames(d + [e]) ==
      (if |d| < ContextSize then LastUsernames(d) else LastUsernames(d)[1..]) + [Username(e)]
  {
    var before := LastUsernames(d);
    var after := LastUsernames(d + [e]);
    var expected := (if |d| < ContextSize then before else before[1..]) + [Username(e)];
    assert |after| == |expected|;
    forall k | 0 <= k < |after|
      ensures after[k] == expected[k]
    {
      if k == |after| - 1 {
        assert after[k] == Username((d + [e])[|d|]);
      } else if |d| < ContextSize {
        assert after[k] == Username((d + [e])[k]);
        assert before[k] == Username(d[k]);
      } else {
        assert after[k] == Username((d + [e])[|d| + 1 - ContextSize + k]);
        assert expected[k] == before[k + 1] == Username(d[|d| - ContextSize + k + 1]);
      }
    }
  }
}

=== FILE: json_values.dfy ===
/**
 * The values `json.loads` can hand back to the script, and the one record
 * shape the script cares about: an object carrying a "username" key.
 */
module JsonValues {

  datatype Json =
    | JNull
    | JBool(b: bool)
    | JNumber(n: real)
    | JString(s: string)
    | JArray(items: seq<Json>)
    | JObject(fields: map<string, Json>)

  /** Python truthiness of a decoded value: empty containers, zero, false and null are false. */
  predicate Truthy(v: Json) {
    match v
    case JNull => false
    case JBool(b) => b
    case JNumber(n) => n != 0.0
    case JString(s) => |s| > 0
    case JArray(items) => |items| > 0
    case JObject(fields) => |fields| > 0
  }

  /** A decoded value is a username record when it is an object with a "username" key. */
  predicate IsEntry(v: Json) {
    v.JObject? && "username" in v.fields
  }

  /** A username record: the whole dictionary is kept, not only its username. */
  type Entry = v: Json | IsEntry(v) witness JObject(map["username" := JString("")])

  /** The value stored under a record's "username" key. */
  function Username(e: Entry): Json {
    e.fields["username"]
  }
}

=== FILE: pipeline.dfy ===
/**
 * The main loop of `generate_usernames_dataset` in usernames.py, with the
 * language model as a scripted reply function and the retry loop bounded
 * by a number of calls.
 */
module Pipeline {
  import opened Wrappers
  import opened Arith
  import opened JsonValues
  import opened Cleaner
  import opened Context
  import opened Validator
  import opened Accumulator

  /**
   * The batch step once the model's reply text is in hand: clean, decode,
   * validate. A reply with no '[' followed by a ']' never yields a batch,
   * and a decoder that follows JSON's grammar never lets the iteration of a
   * decoded scalar raise.
   */
  function BatchFromReply(raw: string, decode: string -> Option<Json>): (r: BatchOutcome)
    ensures !HasBracketPair(raw) ==> r == NoBatch
    ensures HasBracketPair(raw) ==> Candidate(raw).Some? && r == Validate(decode(Candidate(raw).value))
    ensures r.Accepted? ==> HasBracketPair(raw) && |r.entries| == BatchSize
    ensures ArrayFaithful(decode) ==> !r.NotIterable?
  {
    Validate(Clean(raw, decode))
  }

  /** The end of one loop iteration: the next state, or the exception that ends the run. */
  datatype Step = Next(state: State) | Raised

  /** One round of the generation loop, once the model's reply has arrived. */
  function Iterate(st: State, raw: string, total: int, decode: string -> Option<Json>): (r: Step)
    ensures r.Raised? <==> BatchFromReply(raw, decode).NotIterable?
    ensures BatchFromReply(raw, decode).NoBatch? ==> r == Next(st)
    ensures r.Next? ==> st.dataset <= r.state.dataset && st.count <= r.state.count <= Max(st.count, total)
    ensures r.Next? && Consistent(st) ==> Consistent(r.state)
    ensures r.Next? && Consistent(st) && Distinct(st.dataset) ==> Distinct(r.state.dataset)
    ensures BatchFromReply(raw, decode).Accepted? ==>
      var batch := BatchFromReply(raw, decode).entries;
      r.Next? && r.state.dataset == st.dataset + Take(total - st.count, Dedup(st.seen, batch))
  {
    match BatchFromReply(raw, decode)
    case NoBatch => Next(st)
    case NotIterable => Raised
    case Accepted(batch) =>
      MergeKeepsInvariants(st, batch, total);
      MergeIsDedupThenCap(st, batch, total);
      Next(Merge(st, batch, total))
  }

  lemma MergeKeepsInvariants(st: State, batch: seq<Entry>, total: int)
    ensures Consistent(st) ==> Consistent(Merge(st, batch, total))
    ensures Consistent(st) && Distinct(st.dataset) ==> Distinct(Merge(st, batch, total).dataset)
  {
    if Consistent(st) {
      MergeKeepsConsistent(st, batch, total);
      if Distinct(st.dataset) {
        MergeKeepsDistinct(st, batch, total);
      }
    }
  }

  /** Target count 10, empty store, and a first reply of ten new distinct usernames: one round reaches the target. */
  lemma OneRoundFillsEmptyStore(raw: string, decode: string -> Option<Json>)
    requires BatchFromReply(raw, decode).Accepted?
    requires Distinct(BatchFromReply(raw, decode).entries)
    ensures Iterate(Load([]), raw, BatchSize, decode) ==
      Next(State(BatchFromReply(raw, decode).entries, UsernameSet(BatchFromReply(raw, decode).entries), BatchSize))
  {
    var batch := BatchFromReply(raw, decode).entries;
    var st := Load([]);
    MergeTakesFreshBatch(st, batch, BatchSize);
    MergeKeepsConsistent(st, batch, BatchSize);
    assert [] + batch == batch;
  }

  /**
   * The end-to-end scenario: an empty store, a target of ten, and a first
   * reply that is a valid batch of ten distinct usernames.
   */
  predicate FirstReplyFills(existing: seq<Entry>, total: int, respond: (nat, seq<Json>) -> string,
                            decode: string -> Option<Json>, maxCalls: nat)
  {
    && existing == [] && total == BatchSize && 0 < maxCalls
    && BatchFromReply(respond(0, []), decode).Accepted?
    && Distinct(BatchFromReply(respond(0, []), decode).entries)
  }

  /**
   * What the loop keeps from one round to the next: a consistent state whose
   * dataset extends the loaded entries, a count between the loaded size and
   * the larger of that size and the target, and distinct usernames when the
   * loaded ones were distinct.
   */
  predicate Progress(existing: seq<Entry>, total: int, st: State) {
    && Consistent(st)
    && existing <= st.dataset
    && |existing| <= st.count <= Max(|existing|, total)
    && (Distinct(existing) ==> Distinct(st.dataset))
  }

  /** A round that does not raise keeps `Progress`. */
  lemma IterateKeepsProgress(existing: seq<Entry>, total: int, st: State, raw: string,
                             decode: string -> Option<Json>)
    requires Progress(existing, total, st)
    ensures Iterate(st, raw, total, decode).Next? ==> Progress(existing, total, Iterate(st, raw, total, decode).state)
  {
  }

  /** How a bounded run ends. */
  datatype Status = Done | OutOfCalls | Crashed

  /** Where a bounded run ends: the final state, the number of model calls made, and how it ended. */
  datatype RunResult = RunResult(state: State, calls: nat, status: Status)

  /**
   * The reference run of the generation loop from state `st` with `k` calls
   * already made: stop when the target is met, stop when the calls are used
   * up, and otherwise ask the model with the current context, then either
   * raise or go on from the iterated state.
   */
  function Run(st: State, k: nat, maxCalls: nat, total: int, respond: (nat, seq<Json>) -> string,
               decode: string -> Option<Json>): (r: RunResult)
    ensures r.status == Done <==> r.state.count >= total
    ensures k <= maxCalls ==> k <= r.calls <= maxCalls
    ensures r.status == OutOfCalls ==> r.calls == Max(k, maxCalls)
    ensures st.count >= total ==> r == RunResult(st, k, Done)
    decreases maxCalls - k
  {
    if st.count >= total then RunResult(st, k, Done)
    else if k >= maxCalls then RunResult(st, k, OutOfCalls)
    else match Iterate(st, respond(k, LastUsernames(st.dataset)), total, decode)
      case Raised => RunResult(st, k + 1, Crashed)
      case Next(next) => Run(next, k + 1, maxCalls, total, respond, decode)
  }

  /** Below the target and with calls left, a run is one round followed by the rest of the run. */
  lemma RunUnfolds(st: State, k: nat, maxCalls: nat, total: int, respond: (nat, seq<Json>) -> string,
                   decode: string -> Option<Json>)
    requires st.count < total && k < maxCalls
    ensures var step := Iterate(st, respond(k, LastUsernames(st.dataset)), total, decode);
      && (step.Raised? ==> Run(st, k, maxCalls, total, respond, decode) == RunResult(st, k + 1, Crashed))
      && (step.Next? ==> Run(st, k, maxCalls, total, respond, decode) == Run(step.state, k + 1, maxCalls, total, respond, decode))
  {
  }

  /**
   * A whole run keeps `Progress`, and it can only crash on a decoder that
   * lets a scalar through where JSON's grammar demands a list.
   */
  lemma {:induction false} RunKeepsProgress(existing: seq<Entry>, total: int, st: State, k: nat, maxCalls: nat,
                                            respond: (nat, seq<Json>) -> string, decode: string -> Option<Json>)
    requires Progress(existing, total, st)
    ensures Progress(existing, total, Run(st, k, maxCalls, total, respond, decode).state)
    ensures Run(st, k, maxCalls, total, respond, decode).status == Crashed ==> !ArrayFaithful(decode)
    decreases maxCalls - k
  {
    if st.count < total && k < maxCalls {
      var reply := respond(k, LastUsernames(st.dataset));
      IterateKeepsProgress(existing, total, st, reply, decode);
      RunUnfolds(st, k, maxCalls, total, respond, decode);
      match Iterate(st, reply, total, decode)
      case Raised =>
      case Next(next) =>
        RunKeepsProgress(existing, total, next, k + 1, maxCalls, respond, decode);
    }
  }

  /** An empty store with a target of ten is filled by a first reply of ten new distinct usernames, in one call. */
  lemma RunFirstReplyFills(existing: seq<Entry>, total: int, respond: (nat, seq<Json>) -> string,
                           decode: string -> Option<Json>, maxCalls: nat)
    requires FirstReplyFills(existing, total, respond, decode, maxCalls)
    ensures var r := Run(Load(existing), 0, maxCalls, total, respond, decode);
      r.calls == 1 && r.status == Done && r.state.dataset == BatchFromReply(respond(0, []), decode).entries
  {
    assert LastUsernames(Load(existing).dataset) == [];
    OneRoundFillsEmptyStore(respond(0, []), decode);
  }

  /**
   * `generate_usernames_dataset` from the loaded entries onwards. Reply
   * number `k` of the model, given the context usernames, is `respond(k, context)`;
   * at most `maxCalls` requests are made.
   */
  method GenerateDataset(existing: seq<Entry>, total: int, respond: (nat, seq<Json>) -> string,
                         decode: string -> Option<Json>, maxCalls: nat)
    returns (st: State, calls: nat, status: Status)
    ensures RunResult(st, calls, status) == Run(Load(existing), 0, maxCalls, total, respond, decode)
    ensures Consistent(st)
    ensures existing <= st.dataset
    ensures |existing| <= st.count <= Max(|existing|, total)
    ensures status == Done <==> st.count >= total
    ensures status == OutOfCalls ==> calls == maxCalls
    ensures calls <= maxCalls
    ensures |existing| >= total ==> calls == 0 && st.dataset == existing && status == Done
    ensures Distinct(existing) ==> Distinct(st.dataset) && |st.seen| == st.count
    ensures ArrayFaithful(decode) ==> status != Crashed
    ensures FirstReplyFills(existing, total, respond, decode, maxCalls)
      ==> calls == 1 && status == Done && st.dataset == BatchFromReply(respond(0, []), decode).entries
  {
    st := Load(existing);
    calls := 0;
    status := Done;
    var crashed := false;
    ghost var outcome := Run(Load(existing), 0, maxCalls, total, respond, decode);
    while st.count < total && calls < maxCalls && !crashed
      invariant calls <= maxCalls
      invariant !crashed ==> Run(st, calls, maxCalls, total, respond, decode) == outcome
      invariant crashed ==> outcome == RunResult(st, calls, Crashed)
      decreases maxCalls - calls, if crashed then 0 else 1
    {
      var context := LastUsernames(st.dataset);
      var reply := respond(calls, context);
      RunUnfolds(st, calls, maxCalls, total, respond, decode);
      calls := calls + 1;
      var step := Iterate(st, reply, total, decode);
      match step
      case Raised =>
        crashed := true;
      case Next(next) =>
        st := next;
    }
    if crashed {
      status := Crashed;
    } else if st.count < total {
      status := OutOfCalls;
    }
    RunKeepsProgress(existing, total, Load(existing), 0, maxCalls, respond, decode);
    if FirstReplyFills(existing, total, respond, decode, maxCalls) {
      RunFirstReplyFills(existing, total, respond, decode, maxCalls);
    }
    if Distinct(existing) {
      DistinctSizes(st.dataset);
    }
  }
}

=== FILE: sequences.dfy ===
/** Generic facts about sequences shared by the cleaner, the validator and the accumulator. */
module Sequences {

  /** `xs` can be obtained from `ys` by deleting elements, keeping the order of the rest. */
  predicate IsSubsequence<T(==)>(xs: seq<T>, ys: seq<T>)
    decreases |ys|
  {
    if ys == [] then
      xs == []
    else
      || (xs != [] && xs[0] == ys[0] && IsSubsequence(xs[1..], ys[1..]))
      || IsSubsequence(xs, ys[1..])
  }

  lemma {:induction false} SubsequenceOfSuffix<T>(xs: seq<T>, ys: seq<T>, k: nat)
    requires k <= |ys|
    requires IsSubsequence(xs, ys[k..])
    ensures IsSubsequence(xs, ys)
    decreases k
  {
    if k > 0 {
      assert ys[1..][k - 1..] == ys[k..];
      SubsequenceOfSuffix(xs, ys[1..], k - 1);
    }
  }

  /** The elements of `s` that satisfy `p`, in order. */
  function Filter<T>(s: seq<T>, p: T -> bool): (r: seq<T>)
    ensures |r| <= |s|
    ensures forall x :: x in r ==> x in s && p(x)
    decreases |s|
  {
    if |s| == 0 then []
    else (if p(s[0]) then [s[0]] else []) + Filter(s[1..], p)
  }

  lemma {:induction false} FilterAppend<T>(a: seq<T>, b: seq<T>, p: T -> bool)
    ensures Filter(a + b, p) == Filter(a, p) + Filter(b, p)
    decreases |a|
  {
    if |a| == 0 {
      assert a + b == b;
    } else {
      assert (a + b)[0] == a[0];
      assert (a + b)[1..] == a[1..] + b;
      FilterAppend(a[1..], b, p);
    }
  }

  /** Filtering keeps an element exactly when it is present and satisfies `p`. */
  lemma {:induction false} FilterMembership<T>(s: seq<T>, p: T -> bool, x: T)
    ensures x in Filter(s, p) <==> x in s && p(x)
    decreases |s|
  {
    if |s| > 0 {
      FilterMembership(s[1..], p, x);
      assert s == [s[0]] + s[1..];
    }
  }

  lemma ConsAppend<T>(t: seq<T>, v: seq<T>)
    requires |t| > 0
    ensures [t[0]] + (t[1..] + v) == t + v
  {
    assert t == [t[0]] + t[1..];
  }
}

=== FILE: validator.dfy ===
/**
 * The batch validator at the end of `generate_username_batch` in
 * usernames.py: keep the records that carry a "username" key and accept the
 * batch only when exactly ten of them are found.
 */
module Validator {
  import opened Wrappers
  import opened JsonValues
  import opened Sequences

  /** The number of usernames each request asks for, and the exact count a batch must have. */
  const BatchSize: nat := 10

  /** What `generate_username_batch` ends in: a batch, `None`, or the TypeError of iterating a scalar. */
  datatype BatchOutcome =
    | Accepted(entries: seq<Entry>)
    | NoBatch
    | NotIterable

  /** Occurrences of `v` in `s`. */
  function Occurrences(s: seq<Json>, v: Json): nat {
    multiset(s)[v]
  }

  /**
   * The filtering loop: the elements that are records with a "username" key,
   * in their original order, each as often as it occurs.
   */
  function ValidEntries(items: seq<Json>): (r: seq<Entry>)
    ensures forall v :: Occurrences(r, v) == (if IsEntry(v) then Occurrences(items, v) else 0)
    decreases |items|
  {
    if |items| == 0 then
      []
    else
      var rest := ValidEntries(items[1..]);
      assert items == [items[0]] + items[1..];
      if IsEntry(items[0]) then
        [items[0]] + rest
      else
        rest
  }

  /** The kept records appear in the order they had in the decoded list. */
  lemma {:induction false} ValidEntriesInOrder(items: seq<Json>)
    ensures IsSubsequence(ValidEntries(items), items)
    decreases |items|
  {
    if |items| > 0 {
      ValidEntriesInOrder(items[1..]);
    }
  }

  lemma {:induction false} ValidEntriesAppend(a: seq<Json>, b: seq<Json>)
    ensures ValidEntries(a + b) == ValidEntries(a) + ValidEntries(b)
    decreases |a|
  {
    if |a| == 0 {
      assert a + b == b;
    } else {
      assert (a + b)[0] == a[0];
      assert (a + b)[1..] == a[1..] + b;
      ValidEntriesAppend(a[1..], b);
    }
  }

  /** A list made only of records is kept whole. */
  lemma {:induction false} ValidEntriesOfEntries(items: seq<Entry>)
    ensures ValidEntries(items) == items
    decreases |items|
  {
    if |items| > 0 {
      ValidEntriesOfEntries(items[1..]);
    }
  }

  /** A list with no record carrying "username" yields nothing. */
  lemma ValidEntriesOfJunk(items: seq<Json>)
    requires forall k :: 0 <= k < |items| ==> !IsEntry(items[k])
    ensures ValidEntries(items) == []
  {
  }

  /**
   * The gate on a decoded reply: a falsy value gives no batch; otherwise the
   * records are filtered out and accepted only when there are exactly ten.
   * Iterating a dict visits its keys and iterating a str its characters;
   * neither is ever a dict, so both end with no batch. A truthy number or
   * `true` cannot be iterated and raises.
   */
  function Validate(decoded: Option<Json>): (r: BatchOutcome)
    ensures r.Accepted? <==>
      decoded.Some? && decoded.value.JArray? && |ValidEntries(decoded.value.items)| == BatchSize
    ensures r.Accepted? ==> |r.entries| == BatchSize
    ensures r.Accepted? ==>
      && IsSubsequence(r.entries, decoded.value.items)
      && forall v :: IsEntry(v) ==> Occurrences(r.entries, v) == Occurrences(decoded.value.items, v)
    ensures r.NotIterable? <==>
      decoded.Some? && Truthy(decoded.value) && (decoded.value.JNumber? || decoded.value.JBool?)
  {
    match decoded
    case None => NoBatch
    case Some(v) =>
      if !Truthy(v) then
        NoBatch
      else
        match v
        case JArray(items) =>
          var valid := ValidEntries(items);
          ValidEntriesInOrder(items);
          if |valid| == BatchSize then Accepted(valid) else NoBatch
        case JObject(_) => NoBatch
        case JString(_) => NoBatch
        case JNumber(_) => NotIterable
        case JBool(_) => NotIterable
        case JNull => NoBatch
  }

  /** Elements that are not username records never change the verdict. */
  lemma JunkDoesNotCount(items: seq<Json>, junk: seq<Json>)
    requires forall k :: 0 <= k < |junk| ==> !IsEntry(junk[k])
    ensures Validate(Some(JArray(items + junk))) == Validate(Some(JArray(items)))
  {
    ValidEntriesAppend(items, junk);
    ValidEntriesOfJunk(junk);
    assert ValidEntries(items + junk) == ValidEntries(items);
  }

  /** A list made only of username records is accepted exactly when it has ten elements, and then whole. */
  lemma AllRecordsGate(items: seq<Entry>)
    ensures Validate(Some(JArray(items))) == if |items| == BatchSize then Accepted(items) else NoBatch
  {
    ValidEntriesOfEntries(items);
  }
}

=== FILE: wrappers.dfy ===
/** An optional value, standing for Python's `None` or a present result. */
module Wrappers {

  datatype Option<+T> = None | Some(value: T)
}
